=== FILE: README.md ===
# FlickFindr structural search — a Dafny model

FlickFindr is a movie catalogue with three kinds of search. This project models
its structural search core: the filters, the sort, the page window and the
`has_more` flag, along with the two auxiliary queries behind the filter UI
(the genre list and the slider ranges) and the plot-embedding wrapper.

The catalogue is a `seq<Movie>` in table order. The database queries become
pure functions over that sequence:

- `Filters.BuildQuery` is the `WHERE` clause.
- `Sorting.ApplySorting` is `ORDER BY … NULLS LAST`.
- `Search.Window` is `OFFSET … LIMIT`.
- `Ordering.Least` is SQL `min`/`max`.

The genre count is a method with the loops of the source. Its dictionary is a
map together with its key insertion order. The sentence encoder is a
parameter: a total function from text to a `Vector`, which is a `seq<real>`
of length `EmbeddingDim` = 384.

Modules:

- `Wrappers`: `Option`.
- `Text`: ASCII case folding, substring search, Python `strip` and `split`.
- `Ordering`: total preorders, an insertion sort, least element.
- `Models`: the enums, the `Movie` entity, the request and its bounds and defaults, and the response records.
- `Filters`
- `Sorting`
- `Search`
- `Genres`
- `Stats`
- `Embedding`

Three behaviours of the code a reader might not expect:

- The name filter is case-insensitive, like the other text filters, because it uses `ilike`.
- An empty filter text is treated like an absent one (Python truthiness).
- A zero maximum aggregate is replaced by its default, not only an empty one. See Findings.

## Model

| member | source | states |
|---|---|---|
| Text.Strip | backend/src/search/service.py:98 | the stripped text has no surrounding whitespace, and removing it cut only whitespace from the two ends |
| Text.StripIdempotent | backend/src/search/service.py:98 | stripping a stripped token changes nothing |
| Text.BlankIffAllSpace | backend/src/search/embedding.py:35 | `not text.strip()` holds exactly when every character is whitespace |
| Text.JoinSplit | backend/src/search/service.py:97 | splitting a genre field on commas loses nothing: rejoining the pieces gives the field back |
| Text.SplitJoin | backend/src/search/service.py:97 | comma-free pieces joined by commas split back into exactly those pieces |
| Text.ContainsIffOccurs | backend/src/search/service.py:29 | the `%text%` pattern matches exactly when the text occurs at some position |
| Text.IContainsCaseBlind | backend/src/search/service.py:29 | the `ilike` match does not depend on the letter case of either side: re-casing any letters of the column text or of the filter text keeps the match |
| Text.IContainsIgnoresCase | backend/src/search/service.py:29 | upper- or lower-casing both sides together does not change the match |
| Models.ParseSortOrder | backend/src/search/models.py:7-9 | a wire string parses to a direction exactly when it is that direction's value |
| Models.ParseSortBy | backend/src/search/models.py:12-16 | a wire string parses to a column exactly when it is that column's value |
| Models.KeyIsNamedColumn | backend/src/search/service.py:53 | looking a column up by the enum's value reads the column the enum names |
| Models.DefaultRequest | backend/src/search/models.py:19-42 | the request with no fields passes validation, has no filter, sorts by rating descending, and asks for 10 from 0 |
| Models.MinimalResult | backend/src/search/models.py:45-59 | a result needs only id and name; every other field defaults to null |
| Models.ToResultForgetsOnlyEmbedding | backend/src/search/views.py:42 | two records give equal results exactly when they differ at most in the embedding |
| Filters.ClausesAgreeWithMatches | backend/src/search/service.py:23-49 | the clauses the builder adds all hold on a record exactly when the record passes every present filter |
| Filters.BuildQuery | backend/src/search/service.py:23-49 | the filtered list has one record per matching catalogue position |
| Filters.BuildQueryCounts | backend/src/search/service.py:23-49 | every copy of a matching record is kept, and no copy of a non-matching one |
| Filters.NoFiltersKeepAll | backend/src/search/service.py:28-47 | absent filters, and empty text filters, exclude nothing |
| Filters.NoFiltersKeepCatalogue | backend/src/search/service.py:23-49 | with no filters the query yields the whole catalogue in order |
| Filters.NullColumnsFailPresentFilters | backend/src/search/service.py:32-47 | a present filter excludes a record whose column is null, even a bound of 0 |
| Filters.NameFilterFindsInfix | backend/src/search/service.py:28-29 | a title containing the query text anywhere, in any case, is returned |
| Filters.BoundsAreInclusive | backend/src/search/service.py:40-47 | a record sitting exactly on the bounds passes them |
| Filters.InvertedRangeMatchesNothing | backend/src/search/service.py:40-47 | a lower bound above the upper bound matches no record |
| Ordering.Least | backend/src/search/service.py:115-118 | the aggregate is null exactly for no values, and otherwise is a value no later than any other |
| Ordering.InsertionSortSorted | backend/src/search/service.py:103 | under a total preorder the sorted list is in order |
| Ordering.SortKeepsPairwise | backend/src/search/service.py:103 | sorting keeps a symmetric relation that held between all elements |
| Sorting.MovieOrderIsTotalPreorder | backend/src/search/service.py:51-60 | the nulls-last comparison ranks every pair of records and chains, in both directions and on every column |
| Sorting.SortedMeansNullsLastAndMonotone | backend/src/search/service.py:55-58 | being in order means nulls come last and the present keys follow the direction |
| Sorting.ApplySorting | backend/src/search/service.py:51-60 | sorting is a permutation of the filtered records |
| Sorting.ApplySortingOrders | backend/src/search/service.py:55-58 | the sorted records have nulls last and their present keys in the requested direction |
| Search.WindowsTile | backend/src/search/service.py:75 | consecutive offset/limit windows of one list concatenate into the window of their combined length |
| Search.Window | backend/src/search/service.py:75 | `OFFSET skip LIMIT limit` returns min(limit, max(0, n − skip)) of n records; an offset past the end returns none |
| Search.SortedMatchesAreMatches | backend/src/search/service.py:66-72 | every sorted match is a catalogue record that passes the filters |
| Search.ExecuteSearch | backend/src/search/service.py:62-81 | the total counts all matches; the page holds min(limit, max(0, total − skip)) records; an offset past the total gives an empty page |
| Search.PageHoldsMatches | backend/src/search/service.py:62-81 | every record on a page is a catalogue record that passes the filters |
| Search.PageIsSorted | backend/src/search/service.py:72-75 | every page is sorted nulls last in the requested direction |
| Search.TotalIgnoresSortAndPage | backend/src/search/service.py:66-69 | the total depends on the filters alone, never on the sort or the page |
| Search.SortedMatchesIgnorePage | backend/src/search/service.py:66-72 | the ordered matches do not depend on the requested page, given the model's one tie order |
| Search.BuildQueryDependsOnClauses | backend/src/search/service.py:23-49 | two requests with the same clauses select the same records |
| Search.ConsecutivePages | backend/src/search/service.py:75 | a page followed by the next page of the same query equals the combined page, given the model's one tie order |
| Search.FullPageIsAllMatches | backend/src/search/service.py:69-75 | a page from 0 that has room for every match is a reordering of all the matches |
| Search.DefaultSearch | backend/src/search/models.py:19-42 | an empty request returns the ten best-rated records, nulls last, and counts the whole catalogue |
| Search.StructuralSearch | backend/src/search/views.py:41-47 | the response echoes skip and limit, reports the total, pages as above, and sets `has_more` exactly when skip + limit < total |
| Search.HasMoreIffNextPageNonEmpty | backend/src/search/views.py:46 | `has_more` is set exactly when the next page is non-empty |
| Genres.AddCounts | backend/src/search/service.py:100 | one increment keeps the dictionary counting every token seen, in first-seen key order |
| Genres.CountPieces | backend/src/search/service.py:97-100 | the inner loop adds each non-empty stripped piece of a field to the counts |
| Genres.CountField | backend/src/search/service.py:96-100 | one record's turn adds its genre field's tokens to the counts, and a null or empty field adds none |
| Genres.CountTokens | backend/src/search/service.py:94-100 | after the loop, the dictionary holds exactly the catalogue's tokens, each with its number of occurrences |
| Genres.TokensAreClean | backend/src/search/service.py:96-99 | every counted token is non-empty, has no surrounding whitespace and has no comma |
| Genres.NullGenreContributesNothing | backend/src/search/service.py:91-96 | a record whose genre is null or empty adds no token |
| Genres.ReorderedItemsCount | backend/src/search/service.py:103-105 | any reordering of the dictionary items pairs each name with its true count, at least 1 |
| Genres.ReorderedItemsListAll | backend/src/search/service.py:103-105 | any reordering of the dictionary items lists every token |
| Genres.GetGenres | backend/src/search/service.py:87-105 | each token is listed once with its number of occurrences, every token is listed, counts do not increase down the list, and a catalogue without tokens gives an empty list |
| Stats.Ratings | backend/src/search/service.py:115-116 | the aggregated ratings are exactly the non-null ratings |
| Stats.Runtimes | backend/src/search/service.py:117-118 | the aggregated runtimes are exactly the non-null runtimes |
| Stats.RealOr | backend/src/search/service.py:123-124 | a null or zero aggregate gives way to the default; any other value is kept |
| Stats.IntOr | backend/src/search/service.py:125-126 | a null or zero aggregate gives way to the default; any other value is kept |
| Stats.GetStats | backend/src/search/service.py:111-128 | the size of the catalogue, least and greatest rating and runtime, each default when there are no values, and a zero maximum reported as the default |
| Stats.StatsOfEmptyCatalogue | backend/src/search/service.py:122-128 | an empty catalogue reports exactly 0.0, 10.0, 0, 300, 0 |
| Stats.NullRatingsGiveDefaultRange | backend/src/search/service.py:115-124 | all-null ratings report the default rating range |
| Stats.MinRatingIsLeastRating | backend/src/search/service.py:115 | with a rating present, the minimum reported is a catalogue rating no greater than any other |
| Stats.ZeroMaxRuntimeReportsDefault | backend/src/search/service.py:126 | when the longest runtime is 0, the maximum reported is 300 |
| Stats.ZeroRuntimeRecordShowsFalsyDefault | backend/src/search/service.py:126 | a one-record catalogue with runtime 0 reports 300, where the intended value is 0 |
| Stats.GetStatsIntended | backend/src/search/service.py:122-128 | the corrected aggregates: a default only in place of a null, so a zero is reported as zero |
| Stats.IntendedMaxRuntimeIsGreatest | backend/src/search/service.py:118 | with a runtime present, the corrected maximum is a catalogue runtime no smaller than any other |
| Stats.StatsAgreeWithoutZeros | backend/src/search/service.py:122-128 | without a zero rating or runtime the code as written and the corrected aggregates agree |
| Embedding.ZeroVector | backend/src/search/embedding.py:37 | the placeholder vector has 384 zeros |
| Embedding.GenerateEmbedding | backend/src/search/embedding.py:25-41 | empty or whitespace-only text gives the zero vector; other text gives the encoder's vector of the text unstripped |
| Embedding.BlankTextIgnoresEncoder | backend/src/search/embedding.py:35-37 | all-whitespace text never reaches the encoder: any two encoders agree on it |
| Embedding.TextWithContentIsEncoded | backend/src/search/embedding.py:39-41 | text with a non-whitespace character is always encoded |
| Embedding.Normalize | backend/src/search/embedding.py:58 | null, empty and whitespace-only entries become the empty placeholder; other entries are kept |
| Embedding.ReplacePlaceholders | backend/src/search/embedding.py:69-75 | each placeholder slot gets the zero vector, and every other slot gets the encoder's vector at the same index |
| Embedding.NormalizedSlot | backend/src/search/embedding.py:58-75 | the batch path's vector for one entry is the single-text path's vector for it |
| Embedding.BatchGenerateEmbeddings | backend/src/search/embedding.py:44-77 | one vector per input, in order; zeros for null or blank entries, the encoder's vector otherwise, which is the single-text result for each entry |

## Left out

- Semantic and hybrid search, cosine similarity ranking and the similarity threshold are outside the structural core.
- The encoder model is not modelled. This covers its lazy loading (`get_model`, embedding.py:14-22), `batch_size`, the progress bar and `convert_to_numpy`. The encoder is a parameter of the embedding functions.
- Embedding.BatchGenerateEmbeddings: applies the encoder entry by entry. It therefore assumes that the batched call returns, for each text, the vector the encoder gives that text alone. The single batched call itself is not modelled.
- Database sessions, HTTP routing, logging and the try/except blocks are not modelled. Those blocks re-raise or map errors to HTTP 500. The one failure a valid request can reach is the oversized offset under Search.ExecuteSearch below.
- SQL `ILIKE` pattern characters: a `%`, `_` or backslash inside the filter text is matched literally here. In SQL, `%` and `_` act as wildcards. The backslash escapes the next character, because no `ESCAPE` clause is emitted, so `AC\DC` matches "ACDC".
- Case folding covers ASCII letters only. The database's Unicode case folding is not modelled.
- Name sort: uses code-point lexicographic order, not the database collation.
- SQL gives no order among equal keys. The model's insertion sort fixes one tie order. That this order keeps catalogue order (stability) is not proved.
- The row order of the genre query (service.py:91) is not fixed by the source, because the query has no `ORDER BY`. The model reads the catalogue in table order, so the dictionary's first-seen key order is only as fixed as that order.
- Search.ConsecutivePages: holds for the model's one fixed tie order. The source sends each page as a separate `OFFSET`/`LIMIT` query ordered by a non-unique column (service.py:56-58, 75). The database may order tied records, null keys included, differently in each query, so tied records can repeat or go missing across pages.
- Search.SortedMatchesIgnorePage: holds for the model's one fixed tie order. The database may order tied records differently for different `OFFSET`/`LIMIT` values.
- Floating-point ratings are `real`, and integers are unbounded. Apart from the offset below, no integer of the source reaches a bounded type.
- Search.ExecuteSearch: requires only `skip >= 0` and `limit >= 0`, which is what `OFFSET`/`LIMIT` need. It does not require the full request bounds (`Models.Valid`), which the request model enforces before the service runs. The request model bounds `skip` only from below (models.py:41), but the database takes `OFFSET` as a 64-bit integer. A skip of 2^63 or more therefore passes validation and then fails in the database. The service re-raises that error (service.py:83-85) and the endpoint answers HTTP 500 (views.py:51-53), where the model returns an empty page.
- Stats.GetStats: `count(id)` is never null, so `total_movies or 0` is always the catalogue size.
- `EMBEDDING_DIM` (embedding.py:81) is the constant `EmbeddingDim`. No function reads it.

## Findings

| source | as written | input that shows it | evidently intended | confidence | as-written member | corrected member |
|---|---|---|---|---|---|---|
| backend/src/search/service.py:124-126 | `max_rating or 10.0` and `max_runtime or 300` replace any falsy aggregate, so a real maximum of 0 is replaced | a catalogue whose one record has runtime 0 reports max_runtime 300 (likewise all ratings 0.0 report max_rating 10.0) | use the default only when the aggregate is null, as for an empty catalogue, so the reported maximum is the catalogue's greatest value | medium; not executed | Stats.ZeroRuntimeRecordShowsFalsyDefault | Stats.GetStatsIntended |

=== FILE: embedding.dfy ===
/** Plot embeddings: the sentence encoder is a parameter of every operation,
    a total function from text to a vector of the fixed dimension; what is
    modelled is the wrapper around it — the zero vector for blank text, and
    the batch path's normalisation and one-vector-per-input shape. */
module Embedding {
  import opened Wrappers
  import opened Text

  /** Length of every embedding vector. */
  const EmbeddingDim: nat := 384

  type Vector = v: seq<real> | |v| == EmbeddingDim witness seq(384, _ => 0.0)

  /** The vector of `EmbeddingDim` zeros. */
  function ZeroVector(): (z: Vector)
    ensures forall i :: 0 <= i < |z| ==> z[i] == 0.0
  {
    seq(EmbeddingDim, _ => 0.0)
  }

  /** Python's `not text or not text.strip()`. */
  predicate Empty(text: string) {
    text == "" || Blank(text)
  }

  /** `generate_embedding`: the zero vector for empty or whitespace-only text,
      otherwise the encoder's vector for the text as given (not stripped). */
  function GenerateEmbedding(text: string, encode: string -> Vector): (v: Vector)
    ensures Empty(text) ==> v == ZeroVector()
    ensures !Empty(text) ==> v == encode(text)
  {
    if text == "" || Blank(text) then ZeroVector() else encode(text)
  }

  /** Blank text never reaches the encoder: any two encoders agree on it. */
  lemma BlankTextIgnoresEncoder(text: string, e1: string -> Vector, e2: string -> Vector)
    requires forall k :: 0 <= k < |text| ==> IsSpace(text[k])
    ensures GenerateEmbedding(text, e1) == GenerateEmbedding(text, e2) == ZeroVector()
  {
    BlankIffAllSpace(text);
  }

  /** Text with a non-space character is always sent to the encoder. */
  lemma TextWithContentIsEncoded(text: string, k: int, encode: string -> Vector)
    requires 0 <= k < |text| && !IsSpace(text[k])
    ensures GenerateEmbedding(text, encode) == encode(text)
  {
    BlankIffAllSpace(text);
  }

  /** The batch path's placeholder rule: a null, empty or whitespace-only entry
      becomes the empty text; any other entry is kept as it is. */
  function Normalize(t: Option<string>): (r: string)
    ensures t.None? || Empty(t.value) ==> r == ""
    ensures t.Some? && !Empty(t.value) ==> r == t.value
  {
    if t.Some? && t.value != "" && !Blank(t.value) then t.value else ""
  }

  /** `batch_generate_embeddings`: one vector per input, in input order; the
      encoder runs once over the normalised texts and every placeholder's
      vector is replaced by zeros. With the encoder applied item by item, each
      entry gets the vector the single-text path gives it, a null entry being
      treated as empty text. */
  method BatchGenerateEmbeddings(texts: seq<Option<string>>, encode: string -> Vector)
    returns (result: seq<Vector>)
    ensures |result| == |texts|
    ensures forall i :: 0 <= i < |texts| && (texts[i].None? || Empty(texts[i].value)) ==>
      result[i] == ZeroVector()
    ensures forall i :: 0 <= i < |texts| && texts[i].Some? && !Empty(texts[i].value) ==>
      result[i] == encode(texts[i].value)
    ensures forall i :: 0 <= i < |texts| ==> result[i] == GenerateEmbedding(texts[i].GetOr(""), encode)
  {
    var processed := seq(|texts|, i requires 0 <= i < |texts| => Normalize(texts[i]));
    var embeddings := seq(|processed|, i requires 0 <= i < |processed| => encode(processed[i]));
    result := ReplacePlaceholders(processed, embeddings);
    forall i | 0 <= i < |texts| ensures result[i] == GenerateEmbedding(texts[i].GetOr(""), encode) {
      NormalizedSlot(texts[i], encode);
    }
  }

  /** The result loop of the batch path: the zero vector for each placeholder,
      the encoder's vector at the same index otherwise. */
  method ReplacePlaceholders(processed: seq<string>, embeddings: seq<Vector>) returns (result: seq<Vector>)
    requires |embeddings| == |processed|
    ensures |result| == |processed|
    ensures forall j :: 0 <= j < |processed| && processed[j] == "" ==> result[j] == ZeroVector()
    ensures forall j :: 0 <= j < |processed| && processed[j] != "" ==> result[j] == embeddings[j]
  {
    result := [];
    for i := 0 to |processed|
      invariant |result| == i
      invariant forall j :: 0 <= j < i && processed[j] == "" ==> result[j] == ZeroVector()
      invariant forall j :: 0 <= j < i && processed[j] != "" ==> result[j] == embeddings[j]
    {
      if processed[i] == "" {
        result := result + [ZeroVector()];
      } else {
        result := result + [embeddings[i]];
      }
    }
  }

  /** The batch path's vector for one entry is the single-text path's. */
  lemma NormalizedSlot(t: Option<string>, encode: string -> Vector)
    ensures (if Normalize(t) == "" then ZeroVector() else encode(Normalize(t)))
         == GenerateEmbedding(t.GetOr(""), encode)
  {
  }
}

=== FILE: filters.dfy ===
/** The structural predicate: the filter clauses a request contributes, in the
    order the query builder adds them, and the declarative reading of what a
    record must satisfy to be returned. */
module Filters {
  import opened Wrappers
  import opened Text
  import opened Models

  /** One `WHERE` condition of the catalogue query. Text conditions are
      case-insensitive substring matches; range conditions are inclusive. */
  datatype Clause =
    | NameLike(pattern: string)
    | GenreLike(pattern: string)
    | DirectorsLike(pattern: string)
    | StarsLike(pattern: string)
    | RatingAtLeast(rating: real)
    | RatingAtMost(rating: real)
    | RuntimeAtLeast(minutes: int)
    | RuntimeAtMost(minutes: int)

  /** A condition on a null column never holds (SQL comparison with NULL). */
  predicate Like(column: Option<string>, pattern: string) {
    column.Some? && IContains(column.value, pattern)
  }

  predicate Holds(c: Clause, m: Movie) {
    match c
    case NameLike(p) => IContains(m.name, p)
    case GenreLike(p) => Like(m.genre, p)
    case DirectorsLike(p) => Like(m.directors, p)
    case StarsLike(p) => Like(m.stars, p)
    case RatingAtLeast(x) => m.rating.Some? && m.rating.value >= x
    case RatingAtMost(x) => m.rating.Some? && m.rating.value <= x
    case RuntimeAtLeast(n) => m.runtime.Some? && m.runtime.value >= n
    case RuntimeAtMost(n) => m.runtime.Some? && m.runtime.value <= n
  }

  /** Python truthiness of an optional string: present and not empty. */
  predicate Truthy(f: Option<string>) {
    f.Some? && f.value != ""
  }

  /** The one-clause list when `present` holds, the empty list otherwise. */
  function When(present: bool, c: Clause): seq<Clause> {
    if present then [c] else []
  }

  /** The clauses a request adds: one per truthy text filter, one per present
      numeric bound, whatever its value; text clauses first. */
  function Clauses(req: SearchRequest): seq<Clause> {
    TextClauses(req) + RangeClauses(req)
  }

  function TextClauses(req: SearchRequest): seq<Clause> {
    When(Truthy(req.query), NameLike(req.query.GetOr("")))
    + When(Truthy(req.genre), GenreLike(req.genre.GetOr("")))
    + When(Truthy(req.directors), DirectorsLike(req.directors.GetOr("")))
    + When(Truthy(req.stars), StarsLike(req.stars.GetOr("")))
  }

  function RangeClauses(req: SearchRequest): seq<Clause> {
    When(req.minRating.Some?, RatingAtLeast(req.minRating.GetOr(0.0)))
    + When(req.maxRating.Some?, RatingAtMost(req.maxRating.GetOr(0.0)))
    + When(req.minRuntime.Some?, RuntimeAtLeast(req.minRuntime.GetOr(0)))
    + When(req.maxRuntime.Some?, RuntimeAtMost(req.maxRuntime.GetOr(0)))
  }

  predicate AllHold(cs: seq<Clause>, m: Movie) {
    forall i :: 0 <= i < |cs| ==> Holds(cs[i], m)
  }

  /** A text filter constrains only when truthy, and then the column must be
      present and contain the filter text, ignoring case. */
  predicate TextFilterPasses(f: Option<string>, column: Option<string>) {
    Truthy(f) ==> column.Some? && IContains(column.value, f.value)
  }

  /** The record passes every filter the request carries. */
  predicate Matches(req: SearchRequest, m: Movie) {
    TextMatches(req, m) && RangeMatches(req, m)
  }

  predicate TextMatches(req: SearchRequest, m: Movie) {
    && TextFilterPasses(req.query, Some(m.name))
    && TextFilterPasses(req.genre, m.genre)
    && TextFilterPasses(req.directors, m.directors)
    && TextFilterPasses(req.stars, m.stars)
  }

  /** Each present bound needs a present column on the right side of it. */
  predicate RangeMatches(req: SearchRequest, m: Movie) {
    && (req.minRating.Some? ==> m.rating.Some? && req.minRating.value <= m.rating.value)
    && (req.maxRating.Some? ==> m.rating.Some? && m.rating.value <= req.maxRating.value)
    && (req.minRuntime.Some? ==> m.runtime.Some? && req.minRuntime.value <= m.runtime.value)
    && (req.maxRuntime.Some? ==> m.runtime.Some? && m.runtime.value <= req.maxRuntime.value)
  }

  lemma AllHoldConcat(a: seq<Clause>, b: seq<Clause>, m: Movie)
    ensures AllHold(a + b, m) <==> AllHold(a, m) && AllHold(b, m)
  {
    if AllHold(a, m) && AllHold(b, m) {
      forall i | 0 <= i < |a + b| ensures Holds((a + b)[i], m) {
        if i >= |a| {
          assert (a + b)[i] == b[i - |a|];
        }
      }
    }
    if AllHold(a + b, m) {
      forall i | 0 <= i < |a| ensures Holds(a[i], m) {
        assert (a + b)[i] == a[i];
      }
      forall i | 0 <= i < |b| ensures Holds(b[i], m) {
        assert (a + b)[|a| + i] == b[i];
      }
    }
  }

  lemma AllHoldWhen(present: bool, c: Clause, m: Movie)
    ensures AllHold(When(present, c), m) <==> (present ==> Holds(c, m))
  {
    if present {
      assert When(present, c)[0] == c;
    }
  }

  /** Four one-clause-or-empty lists all hold exactly when each does. */
  lemma AllHoldFour(a: seq<Clause>, b: seq<Clause>, c: seq<Clause>, d: seq<Clause>, m: Movie)
    ensures AllHold(a + b + c + d, m) <==> AllHold(a, m) && AllHold(b, m) && AllHold(c, m) && AllHold(d, m)
  {
    AllHoldConcat(a + b + c, d, m);
    AllHoldConcat(a + b, c, m);
    AllHoldConcat(a, b, m);
  }

  lemma TextClausesAgree(req: SearchRequest, m: Movie)
    ensures AllHold(TextClauses(req), m) <==> TextMatches(req, m)
  {
    AllHoldFour(When(Truthy(req.query), NameLike(req.query.GetOr(""))),
                When(Truthy(req.genre), GenreLike(req.genre.GetOr(""))),
                When(Truthy(req.directors), DirectorsLike(req.directors.GetOr(""))),
                When(Truthy(req.stars), StarsLike(req.stars.GetOr(""))), m);
    AllHoldWhen(Truthy(req.query), NameLike(req.query.GetOr("")), m);
    AllHoldWhen(Truthy(req.genre), GenreLike(req.genre.GetOr("")), m);
    AllHoldWhen(Truthy(req.directors), DirectorsLike(req.directors.GetOr("")), m);
    AllHoldWhen(Truthy(req.stars), StarsLike(req.stars.GetOr("")), m);
  }

  lemma RangeClausesAgree(req: SearchRequest, m: Movie)
    ensures AllHold(RangeClauses(req), m) <==> RangeMatches(req, m)
  {
    AllHoldFour(When(req.minRating.Some?, RatingAtLeast(req.minRating.GetOr(0.0))),
                When(req.maxRating.Some?, RatingAtMost(req.maxRating.GetOr(0.0))),
                When(req.minRuntime.Some?, RuntimeAtLeast(req.minRuntime.GetOr(0))),
                When(req.maxRuntime.Some?, RuntimeAtMost(req.maxRuntime.GetOr(0))), m);
    AllHoldWhen(req.minRating.Some?, RatingAtLeast(req.minRating.GetOr(0.0)), m);
    AllHoldWhen(req.maxRating.Some?, RatingAtMost(req.maxRating.GetOr(0.0)), m);
    AllHoldWhen(req.minRuntime.Some?, RuntimeAtLeast(req.minRuntime.GetOr(0)), m);
    AllHoldWhen(req.maxRuntime.Some?, RuntimeAtMost(req.maxRuntime.GetOr(0)), m);
  }

  /** The query the builder assembles keeps a record exactly when the record
      passes every present filter. */
  lemma ClausesAgreeWithMatches(req: SearchRequest, m: Movie)
    ensures AllHold(Clauses(req), m) <==> Matches(req, m)
  {
    AllHoldConcat(TextClauses(req), RangeClauses(req), m);
    TextClausesAgree(req, m);
    RangeClausesAgree(req, m);
  }

  /** Positions of the catalogue whose record passes the filters. */
  ghost function MatchingIndices(cat: seq<Movie>, req: SearchRequest): set<int> {
    set i | 0 <= i < |cat| && Matches(req, cat[i])
  }

  lemma MatchingIndicesStep(cat: seq<Movie>, req: SearchRequest)
    requires |cat| > 0
    ensures MatchingIndices(cat, req)
         == MatchingIndices(cat[..|cat| - 1], req)
            + (if Matches(req, cat[|cat| - 1]) then {|cat| - 1} else {})
  {
    var n := |cat| - 1;
    forall i ensures i in MatchingIndices(cat, req) <==>
                     i in MatchingIndices(cat[..n], req) + (if Matches(req, cat[n]) then {n} else {})
    {
      if 0 <= i < n {
        assert cat[..n][i] == cat[i];
      }
    }
  }

  /** The filtered catalogue, in catalogue order: `build_query` evaluated. Its
      length is the number of catalogue positions that pass the filters. */
  function BuildQuery(cat: seq<Movie>, req: SearchRequest): (r: seq<Movie>)
    ensures |r| == |MatchingIndices(cat, req)|
    ensures |r| <= |cat|
    decreases |cat|
  {
    if |cat| == 0 then []
    else
      var n := |cat| - 1;
      var prefix := BuildQuery(cat[..n], req);
      var m := cat[n];
      MatchingIndicesStep(cat, req);
      ClausesAgreeWithMatches(req, m);
      if AllHold(Clauses(req), m) then prefix + [m] else prefix
  }

  /** The query over a longer catalogue adds its last record, when kept. */
  lemma BuildQueryStep(cat: seq<Movie>, req: SearchRequest)
    requires |cat| > 0
    ensures multiset(BuildQuery(cat, req))
         == multiset(BuildQuery(cat[..|cat| - 1], req))
            + if Matches(req, cat[|cat| - 1]) then multiset{cat[|cat| - 1]} else multiset{}
  {
    var n := |cat| - 1;
    ClausesAgreeWithMatches(req, cat[n]);
    if Matches(req, cat[n]) {
      assert BuildQuery(cat, req) == BuildQuery(cat[..n], req) + [cat[n]];
    }
  }

  /** A list's multiset is its prefix's plus its last element. */
  lemma MultisetOfSnoc<T>(s: seq<T>)
    requires |s| > 0
    ensures multiset(s) == multiset(s[..|s| - 1]) + multiset{s[|s| - 1]}
  {
    assert s == s[..|s| - 1] + [s[|s| - 1]];
  }

  /** The query keeps every copy of a record that passes the filters and no
      copy of one that does not. */
  lemma {:induction false} BuildQueryCounts(cat: seq<Movie>, req: SearchRequest, m: Movie)
    ensures multiset(BuildQuery(cat, req))[m] == if Matches(req, m) then multiset(cat)[m] else 0
    decreases |cat|
  {
    if |cat| > 0 {
      var n := |cat| - 1;
      BuildQueryCounts(cat[..n], req, m);
      BuildQueryStep(cat, req);
      MultisetOfSnoc(cat);
    }
  }

  /** An absent or empty text filter and an absent bound constrain nothing. */
  lemma NoFiltersKeepAll(req: SearchRequest, m: Movie)
    requires NoFilters(req)
    ensures Matches(req, m)
    ensures Matches(req.(query := Some(""), genre := Some(""), directors := Some(""), stars := Some("")), m)
  {
  }

  /** With no filters the query returns the whole catalogue, in order. */
  lemma {:induction false} NoFiltersKeepCatalogue(cat: seq<Movie>, req: SearchRequest)
    requires NoFilters(req)
    ensures BuildQuery(cat, req) == cat
    decreases |cat|
  {
    if |cat| > 0 {
      var n := |cat| - 1;
      NoFiltersKeepCatalogue(cat[..n], req);
      NoFiltersKeepAll(req, cat[n]);
      ClausesAgreeWithMatches(req, cat[n]);
      assert BuildQuery(cat, req) == BuildQuery(cat[..n], req) + [cat[n]];
      assert cat == cat[..n] + [cat[n]];
    }
  }

  /** A truthy text filter excludes every record whose column is null; a
      numeric bound excludes records with a null column even when it is 0. */
  lemma NullColumnsFailPresentFilters(req: SearchRequest, m: Movie)
    ensures Truthy(req.genre) && m.genre.None? ==> !Matches(req, m)
    ensures Truthy(req.directors) && m.directors.None? ==> !Matches(req, m)
    ensures Truthy(req.stars) && m.stars.None? ==> !Matches(req, m)
    ensures (req.minRating.Some? || req.maxRating.Some?) && m.rating.None? ==> !Matches(req, m)
    ensures (req.minRuntime.Some? || req.maxRuntime.Some?) && m.runtime.None? ==> !Matches(req, m)
  {
  }

  /** The name filter is substring containment: a title passes when the query
      text occurs anywhere in it, in any letter case. */
  lemma NameFilterFindsInfix(req: SearchRequest, m: Movie, x: string, t: string, y: string)
    requires Truthy(req.query)
    requires NoFilters(req.(query := None))
    requires m.name == x + t + y
    requires LowerStr(t) == LowerStr(req.query.value)
    ensures Matches(req, m)
    ensures m in BuildQuery([m], req)
  {
    IContainsInfix(x, t, y, req.query.value);
  }

  /** Range bounds are inclusive: a record sitting exactly on both bounds passes
      them. */
  lemma BoundsAreInclusive(req: SearchRequest, m: Movie)
    requires req.minRating.Some? && req.maxRating.Some? && m.rating == req.minRating
    requires req.minRating == req.maxRating
    requires req.minRuntime.Some? && req.maxRuntime.Some? && m.runtime == req.minRuntime
    requires req.minRuntime == req.maxRuntime
    requires NoFilters(req.(minRating := None, maxRating := None, minRuntime := None, maxRuntime := None))
    ensures Matches(req, m)
  {
  }

  /** An inverted range (lower bound above upper bound) matches nothing. */
  lemma InvertedRangeMatchesNothing(cat: seq<Movie>, req: SearchRequest)
    requires || (req.minRating.Some? && req.maxRating.Some? && req.minRating.value > req.maxRating.value)
             || (req.minRuntime.Some? && req.maxRuntime.Some? && req.minRuntime.value > req.maxRuntime.value)
    ensures BuildQuery(cat, req) == []
  {
    assert forall m :: !Matches(req, m);
  }
}

=== FILE: genres.dfy ===
/** The genre list for the filter menu: every comma-separated genre token of
    the catalogue, trimmed, with the number of times it occurs, most frequent
    first. */
module Genres {
  import opened Wrappers
  import opened Text
  import opened Ordering
  import opened Models

  /** The token a comma-separated piece contributes: the piece stripped of
      surrounding whitespace, or nothing when that leaves it empty. */
  function Keep(piece: string): seq<string> {
    var t := Strip(piece);
    if t != "" then [t] else []
  }

  /** The kept tokens of a list of pieces, in order. */
  function KeptTokens(pieces: seq<string>): seq<string>
    decreases |pieces|
  {
    if |pieces| == 0 then []
    else KeptTokens(pieces[..|pieces| - 1]) + Keep(pieces[|pieces| - 1])
  }

  /** The tokens of one genre field; a null or empty field has none. */
  function GenreTokens(genre: Option<string>): seq<string> {
    if genre.Some? && genre.value != "" then KeptTokens(Split(genre.value, ',')) else []
  }

  /** Every token of the catalogue, record by record, in catalogue order. */
  function AllTokens(cat: seq<Movie>): seq<string>
    decreases |cat|
  {
    if |cat| == 0 then []
    else AllTokens(cat[..|cat| - 1]) + GenreTokens(cat[|cat| - 1].genre)
  }

  /** A character absent from a text is absent from its stripped form. */
  lemma StripKeepsOut(s: string, c: char)
    requires c !in s
    ensures c !in Strip(s)
  {
    var t := TrimStart(s);
    var r := TrimEnd(t);
    forall k | 0 <= k < |r| ensures r[k] != c {
      assert r[k] == t[k] == s[|s| - |t| + k];
    }
  }

  /** What counts as a token: not empty, no surrounding whitespace, no comma. */
  ghost predicate Clean(t: string) {
    t != "" && Strip(t) == t && ',' !in t
  }

  lemma {:induction false} KeptTokensClean(pieces: seq<string>)
    requires forall i :: 0 <= i < |pieces| ==> ',' !in pieces[i]
    ensures forall t :: t in KeptTokens(pieces) ==> Clean(t)
    decreases |pieces|
  {
    if |pieces| > 0 {
      var n := |pieces| - 1;
      KeptTokensClean(pieces[..n]);
      KeepClean(pieces[n]);
    }
  }

  lemma KeepClean(piece: string)
    requires ',' !in piece
    ensures forall t :: t in Keep(piece) ==> Clean(t)
  {
    var t := Strip(piece);
    if t != "" {
      StripKeepsOut(piece, ',');
      StripIdempotent(piece);
      assert Keep(piece) == [t];
    }
  }

  /** Every token the catalogue yields is a clean, trimmed, comma-free text. */
  lemma {:induction false} TokensAreClean(cat: seq<Movie>)
    ensures forall t :: t in AllTokens(cat) ==> Clean(t)
    decreases |cat|
  {
    if |cat| > 0 {
      var n := |cat| - 1;
      TokensAreClean(cat[..n]);
      var g := cat[n].genre;
      if g.Some? && g.value != "" {
        KeptTokensClean(Split(g.value, ','));
      }
    }
  }

  /** A record without genre text contributes no token. */
  lemma NullGenreContributesNothing(cat: seq<Movie>, m: Movie)
    requires m.genre.None? || m.genre == Some("")
    ensures AllTokens(cat + [m]) == AllTokens(cat)
  {
    assert (cat + [m])[..|cat|] == cat;
  }

  /** The running state of the counting loop: a count per token and the
      tokens in order of first appearance (a dictionary's key order). */
  datatype Tally = Tally(counts: map<string, int>, order: seq<string>)

  /** The elements of `s` with every later repeat removed. */
  function FirstSeen(s: seq<string>): seq<string>
    decreases |s|
  {
    if |s| == 0 then []
    else
      var prefix := s[..|s| - 1];
      if s[|s| - 1] in prefix then FirstSeen(prefix) else FirstSeen(prefix) + [s[|s| - 1]]
  }

  /** A new element joins the end of the first-seen list; a repeat leaves it
      unchanged. */
  lemma FirstSeenSnoc(s: seq<string>, x: string)
    ensures FirstSeen(s + [x]) == if x in s then FirstSeen(s) else FirstSeen(s) + [x]
  {
    assert (s + [x])[..|s|] == s;
  }

  /** `t` counts the tokens of `seen`: the same keys, in first-seen order,
      each with its number of occurrences. */
  ghost predicate Counts(t: Tally, seen: seq<string>) {
    && (forall k :: k in t.counts <==> k in seen)
    && (forall k :: k in t.order <==> k in seen)
    && (forall k :: k in t.counts ==> t.counts[k] == multiset(seen)[k])
    && (forall i, j :: 0 <= i < j < |t.order| ==> t.order[i] != t.order[j])
    && t.order == FirstSeen(seen)
  }

  /** `genre_counts[k] = genre_counts.get(k, 0) + 1`. */
  function Add(t: Tally, k: string): Tally {
    if k in t.counts then Tally(t.counts[k := t.counts[k] + 1], t.order)
    else Tally(t.counts[k := 1], t.order + [k])
  }

  lemma AddCounts(t: Tally, seen: seq<string>, k: string)
    requires Counts(t, seen)
    ensures Counts(Add(t, k), seen + [k])
  {
    var u := Add(t, k);
    FirstSeenSnoc(seen, k);
    assert multiset(seen + [k]) == multiset(seen) + multiset{k};
    forall x ensures x in u.order <==> x in seen + [k] {
      assert x in seen + [k] <==> x in seen || x == k;
    }
    forall i, j | 0 <= i < j < |u.order| ensures u.order[i] != u.order[j] {
      if k !in t.counts && j == |t.order| {
        assert u.order[i] == t.order[i];
        assert t.order[i] in seen;
      }
    }
  }

  /** Count descending: `a` may precede `b` when it occurs at least as often. */
  function ByCountDesc(): (GenreItem, GenreItem) -> bool {
    (a: GenreItem, b: GenreItem) => a.count >= b.count
  }

  lemma ByCountDescIsTotalPreorder()
    ensures TotalPreorder(ByCountDesc())
  {
  }

  function DistinctNames(): (GenreItem, GenreItem) -> bool {
    (a: GenreItem, b: GenreItem) => a.name != b.name
  }

  /** `name` is listed. */
  predicate Listed(items: seq<GenreItem>, name: string) {
    exists i :: 0 <= i < |items| && items[i].name == name
  }

  lemma KeptTokensSnoc(pieces: seq<string>, j: int)
    requires 0 <= j < |pieces|
    ensures KeptTokens(pieces[..j + 1]) == KeptTokens(pieces[..j]) + Keep(pieces[j])
  {
    assert pieces[..j + 1][..j] == pieces[..j];
  }

  lemma ConcatAssoc(a: seq<string>, b: seq<string>, c: seq<string>)
    ensures a + (b + c) == a + b + c
  {
  }

  /** One pass of the inner loop: strip the piece and count it unless empty. */
  function AddPiece(t: Tally, piece: string): Tally {
    var token := Strip(piece);
    if token != "" then Add(t, token) else t
  }

  lemma AddPieceCounts(t: Tally, seen: seq<string>, pieces: seq<string>, j: int)
    requires 0 <= j < |pieces|
    requires Counts(t, seen + KeptTokens(pieces[..j]))
    ensures Counts(AddPiece(t, pieces[j]), seen + KeptTokens(pieces[..j + 1]))
  {
    KeptTokensSnoc(pieces, j);
    ConcatAssoc(seen, KeptTokens(pieces[..j]), Keep(pieces[j]));
    AddPieceStep(t, seen + KeptTokens(pieces[..j]), pieces[j]);
  }

  lemma AddPieceStep(t: Tally, seen: seq<string>, piece: string)
    requires Counts(t, seen)
    ensures Counts(AddPiece(t, piece), seen + Keep(piece))
  {
    var token := Strip(piece);
    if token != "" {
      AddCounts(t, seen, token);
    } else {
      assert seen + Keep(piece) == seen;
    }
  }

  /** The counting loop of `get_genres` over one genre field's pieces. */
  method CountPieces(t: Tally, ghost seen: seq<string>, pieces: seq<string>) returns (u: Tally)
    requires Counts(t, seen)
    ensures Counts(u, seen + KeptTokens(pieces))
  {
    u := t;
    assert seen + KeptTokens(pieces[..0]) == seen;
    for j := 0 to |pieces|
      invariant Counts(u, seen + KeptTokens(pieces[..j]))
    {
      AddPieceCounts(u, seen, pieces, j);
      u := AddPiece(u, pieces[j]);
    }
    assert pieces[..|pieces|] == pieces;
  }

  /** The counting loop of `get_genres`: the dictionary of token counts. */
  method CountTokens(cat: seq<Movie>) returns (t: Tally)
    ensures Counts(t, AllTokens(cat))
  {
    t := Tally(map[], []);
    for i := 0 to |cat|
      invariant Counts(t, AllTokens(cat[..i]))
    {
      assert cat[..i + 1][..i] == cat[..i];
      t := CountField(t, AllTokens(cat[..i]), cat[i].genre);
    }
    assert cat[..|cat|] == cat;
  }

  /** One record's turn of the counting loop. */
  method CountField(t: Tally, ghost seen: seq<string>, genre: Option<string>) returns (u: Tally)
    requires Counts(t, seen)
    ensures Counts(u, seen + GenreTokens(genre))
  {
    if genre.Some? && genre.value != "" {
      u := CountPieces(t, seen, Split(genre.value, ','));
    } else {
      u := t;
      assert seen + GenreTokens(genre) == seen;
    }
  }

  /** The dictionary's items in key order. */
  function Items(t: Tally): (items: seq<GenreItem>)
    requires forall k :: k in t.order ==> k in t.counts
    ensures |items| == |t.order|
    ensures forall i :: 0 <= i < |items| ==> items[i] == GenreItem(t.order[i], t.counts[t.order[i]])
  {
    seq(|t.order|, i requires 0 <= i < |t.order| => GenreItem(t.order[i], t.counts[t.order[i]]))
  }

  /** Any reordering of the counted items pairs each listed token with its
      number of occurrences. */
  lemma ReorderedItemsCount(t: Tally, seen: seq<string>, items: seq<GenreItem>)
    requires Counts(t, seen)
    requires multiset(items) == multiset(Items(t))
    ensures forall i :: 0 <= i < |items| ==>
      items[i].count == multiset(seen)[items[i].name] && items[i].count >= 1
  {
    forall i | 0 <= i < |items|
      ensures items[i].count == multiset(seen)[items[i].name] && items[i].count >= 1
    {
      assert items[i] in multiset(Items(t));
      var j :| 0 <= j < |Items(t)| && Items(t)[j] == items[i];
      assert t.order[j] in seen;
      assert t.order[j] in multiset(seen);
    }
  }

  /** Any reordering of the counted items lists every token seen. */
  lemma ReorderedItemsListAll(t: Tally, seen: seq<string>, items: seq<GenreItem>)
    requires Counts(t, seen)
    requires multiset(items) == multiset(Items(t))
    ensures forall k :: k in seen ==> Listed(items, k)
  {
    forall k | k in seen ensures Listed(items, k) {
      var j :| 0 <= j < |t.order| && t.order[j] == k;
      assert Items(t)[j] in multiset(items);
    }
  }

  /** `get_genres` evaluated: each distinct token once, with its number of
      occurrences in the catalogue, most frequent first. */
  method GetGenres(cat: seq<Movie>) returns (items: seq<GenreItem>)
    ensures forall i :: 0 <= i < |items| ==>
      items[i].count == multiset(AllTokens(cat))[items[i].name] && items[i].count >= 1
    ensures forall i, j :: 0 <= i < j < |items| ==> items[i].name != items[j].name
    ensures forall t :: t in AllTokens(cat) ==> Listed(items, t)
    ensures forall i, j :: 0 <= i < j < |items| ==> items[i].count >= items[j].count
    ensures AllTokens(cat) == [] ==> items == []
  {
    var tally := CountTokens(cat);
    var unsorted := Items(tally);
    ByCountDescIsTotalPreorder();
    items := InsertionSort(unsorted, ByCountDesc());
    InsertionSortSorted(unsorted, ByCountDesc());
    SortKeepsPairwise(unsorted, ByCountDesc(), DistinctNames());
    ReorderedItemsCount(tally, AllTokens(cat), items);
    ReorderedItemsListAll(tally, AllTokens(cat), items);
    if |items| > 0 {
      assert multiset(AllTokens(cat))[items[0].name] >= 1;
    }
  }
}

=== FILE: models.dfy ===
/** The records the search core reads and returns: the catalogue entry, the
    structural search request with its validation bounds and defaults, the
    two sort enums, and the response shapes. */
module Models {
  import opened Wrappers

  /** Sort direction, with its wire spelling. */
  datatype SortOrder = Asc | Desc {
    function Value(): string {
      match this
      case Asc => "asc"
      case Desc => "desc"
    }
  }

  /** A value a movie can be ordered by: the numeric columns compare as
      numbers, the title as text. */
  datatype SortKey = Number(x: real) | Label(s: string)

  /** One catalogue entry. Only `id` and `name` are never null; an embedding,
      when present, is a plot vector. */
  datatype Movie = Movie(
    id: int,
    name: string,
    rating: Option<real>,
    runtime: Option<int>,
    genre: Option<string>,
    metascore: Option<real>,
    plot: Option<string>,
    directors: Option<string>,
    stars: Option<string>,
    votes: Option<string>,
    gross: Option<string>,
    posterUrl: Option<string>,
    plotEmbedding: Option<seq<real>>)

  /** The sortable columns, with their wire spelling (the column name) and the
      accessor that reads that column of a movie. */
  datatype SortBy = Rating | Runtime | Name | Metascore {
    function Value(): string {
      match this
      case Rating => "rating"
      case Runtime => "runtime"
      case Name => "movie_name"
      case Metascore => "metascore"
    }

    /** The sort key of `m` in this column; absent when the column is null. */
    function Key(m: Movie): (k: Option<SortKey>)
      ensures this == Name ==> k == Some(Label(m.name))
      ensures this == Rating ==> (k.Some? <==> m.rating.Some?)
      ensures this == Runtime ==> (k.Some? <==> m.runtime.Some?)
      ensures this == Metascore ==> (k.Some? <==> m.metascore.Some?)
    {
      match this
      case Rating => if m.rating.Some? then Some(Number(m.rating.value)) else None
      case Runtime => if m.runtime.Some? then Some(Number(m.runtime.value as real)) else None
      case Name => Some(Label(m.name))
      case Metascore => if m.metascore.Some? then Some(Number(m.metascore.value)) else None
    }
  }

  /** Reads a movie column by its name, as an attribute lookup on the entity
      would; absent for a name that is not a sortable column. */
  function ColumnByName(name: string, m: Movie): Option<Option<SortKey>> {
    if name == "rating" then Some(if m.rating.Some? then Some(Number(m.rating.value)) else None)
    else if name == "runtime" then Some(if m.runtime.Some? then Some(Number(m.runtime.value as real)) else None)
    else if name == "movie_name" then Some(Some(Label(m.name)))
    else if name == "metascore" then Some(if m.metascore.Some? then Some(Number(m.metascore.value)) else None)
    else None
  }

  /** The tagged accessor reads the same column as the lookup by the variant's
      wire name. */
  lemma KeyIsNamedColumn(column: SortBy, m: Movie)
    ensures ColumnByName(column.Value(), m) == Some(column.Key(m))
  {
  }

  /** Parsing of the sort direction from its wire spelling. */
  function ParseSortOrder(s: string): (r: Option<SortOrder>)
    ensures forall o: SortOrder :: r == Some(o) <==> o.Value() == s
  {
    if s == "asc" then Some(Asc)
    else if s == "desc" then Some(Desc)
    else None
  }

  /** Parsing of the sort column from its wire spelling. */
  function ParseSortBy(s: string): (r: Option<SortBy>)
    ensures forall b: SortBy :: r == Some(b) <==> b.Value() == s
  {
    if s == "rating" then Some(Rating)
    else if s == "runtime" then Some(Runtime)
    else if s == "movie_name" then Some(Name)
    else if s == "metascore" then Some(Metascore)
    else None
  }

  /** A structural search request: optional text and range filters, the sort
      and the page window. */
  datatype SearchRequest = SearchRequest(
    query: Option<string>,
    genre: Option<string>,
    directors: Option<string>,
    stars: Option<string>,
    minRating: Option<real>,
    maxRating: Option<real>,
    minRuntime: Option<int>,
    maxRuntime: Option<int>,
    sortBy: SortBy,
    sortOrder: SortOrder,
    skip: int,
    limit: int)

  predicate RatingBound(b: Option<real>) {
    b.None? || 0.0 <= b.value <= 10.0
  }

  /** The bounds the request model enforces on construction. */
  predicate Valid(r: SearchRequest) {
    && RatingBound(r.minRating)
    && RatingBound(r.maxRating)
    && (r.minRuntime.None? || r.minRuntime.value >= 0)
    && r.skip >= 0
    && 1 <= r.limit <= 100
  }

  predicate NoFilters(r: SearchRequest) {
    && r.query.None? && r.genre.None? && r.directors.None? && r.stars.None?
    && r.minRating.None? && r.maxRating.None?
    && r.minRuntime.None? && r.maxRuntime.None?
  }

  /** The request built when the client sends no fields. */
  function DefaultRequest(): (r: SearchRequest)
    ensures Valid(r)
    ensures NoFilters(r)
    ensures r.sortBy == Rating && r.sortOrder == Desc
    ensures r.skip == 0 && r.limit == 10
  {
    SearchRequest(None, None, None, None, None, None, None, None, Rating, Desc, 0, 10)
  }

  /** A movie as returned to the client: the catalogue entry without its
      embedding. */
  datatype MovieResult = MovieResult(
    id: int,
    movieName: string,
    rating: Option<real>,
    runtime: Option<int>,
    genre: Option<string>,
    metascore: Option<real>,
    plot: Option<string>,
    directors: Option<string>,
    stars: Option<string>,
    votes: Option<string>,
    gross: Option<string>,
    posterUrl: Option<string>)

  predicate NoOptionalFields(r: MovieResult) {
    && r.rating.None? && r.runtime.None? && r.genre.None? && r.metascore.None?
    && r.plot.None? && r.directors.None? && r.stars.None?
    && r.votes.None? && r.gross.None? && r.posterUrl.None?
  }

  /** A result built from the two required fields only. */
  function MinimalResult(id: int, movieName: string): (r: MovieResult)
    ensures r.id == id && r.movieName == movieName
    ensures NoOptionalFields(r)
  {
    MovieResult(id, movieName, None, None, None, None, None, None, None, None, None, None)
  }

  /** Copies a catalogue entry into a result, attribute by attribute. */
  function ToResult(m: Movie): MovieResult {
    MovieResult(m.id, m.name, m.rating, m.runtime, m.genre, m.metascore, m.plot,
                m.directors, m.stars, m.votes, m.gross, m.posterUrl)
  }

  /** Two movies give the same result exactly when they agree on everything
      but the embedding: the result drops the embedding and nothing else. */
  lemma ToResultForgetsOnlyEmbedding(a: Movie, b: Movie)
    ensures ToResult(a) == ToResult(b) <==> a.(plotEmbedding := None) == b.(plotEmbedding := None)
  {
  }

  /** One page of a structural search, with its paging metadata. */
  datatype SearchResponse = SearchResponse(
    results: seq<MovieResult>,
    total: int,
    skip: int,
    limit: int,
    hasMore: bool)

  /** Ranges for the filter sliders. */
  datatype MovieStats = MovieStats(
    minRating: real,
    maxRating: real,
    minRuntime: int,
    maxRuntime: int,
    totalMovies: int)

  /** A genre tag with the number of times it occurs. */
  datatype GenreItem = GenreItem(name: string, count: int)
}

=== FILE: ordering.dfy ===
/** Orderings and the two order-driven computations the search core performs:
    sorting a list by a key (SQL `ORDER BY`, Python `sorted`) and taking the
    extreme of a column (SQL `min`/`max`). */
module Ordering {
  import opened Wrappers

  ghost predicate Total<T(!new)>(le: (T, T) -> bool) {
    forall a, b :: le(a, b) || le(b, a)
  }

  ghost predicate Transitive<T(!new)>(le: (T, T) -> bool) {
    forall a, b, c :: le(a, b) && le(b, c) ==> le(a, c)
  }

  /** A comparison that ranks every pair and chains: ties are allowed. */
  ghost predicate TotalPreorder<T(!new)>(le: (T, T) -> bool) {
    Total(le) && Transitive(le)
  }

  /** Every element comes no later, by `le`, than each element after it; for
      a symmetric `le`, the relation holds between every two positions. */
  ghost predicate SortedBy<T>(s: seq<T>, le: (T, T) -> bool) {
    forall i, j :: 0 <= i < j < |s| ==> le(s[i], s[j])
  }


  /** Places `x` in front of the first element of `s` it does not follow;
      `x` therefore goes before the elements it ties with. */
  function Insert<T>(x: T, s: seq<T>, le: (T, T) -> bool): (r: seq<T>)
    ensures multiset(r) == multiset(s) + multiset{x}
    decreases |s|
  {
    if |s| == 0 || le(x, s[0]) then [x] + s
    else
      assert s == [s[0]] + s[1..];
      [s[0]] + Insert(x, s[1..], le)
  }

  /** Every element of `Insert(x, s)` is `x` or an element of `s`, by position. */
  lemma InsertElements<T>(x: T, s: seq<T>, le: (T, T) -> bool, j: int)
    requires 0 <= j < |Insert(x, s, le)|
    ensures Insert(x, s, le)[j] == x || exists k :: 0 <= k < |s| && s[k] == Insert(x, s, le)[j]
  {
    var y := Insert(x, s, le)[j];
    assert y in multiset(Insert(x, s, le));
  }

  /** Inserting into a sorted list keeps it sorted. */
  lemma {:induction false} InsertSorted<T(!new)>(x: T, s: seq<T>, le: (T, T) -> bool)
    requires TotalPreorder(le)
    requires SortedBy(s, le)
    ensures SortedBy(Insert(x, s, le), le)
    decreases |s|
  {
    var r := Insert(x, s, le);
    if |s| == 0 {
    } else if le(x, s[0]) {
      assert r == [x] + s;
      forall i, j | 0 <= i < j < |r| ensures le(r[i], r[j]) {
        if i == 0 {
          assert r[j] == s[j - 1];
          if j > 1 {
            assert le(s[0], s[j - 1]);
          }
        } else {
          assert r[i] == s[i - 1] && r[j] == s[j - 1];
        }
      }
    } else {
      var rest := Insert(x, s[1..], le);
      InsertSorted(x, s[1..], le);
      assert r == [s[0]] + rest;
      assert le(s[0], x);
      forall j | 0 <= j < |rest| ensures le(s[0], rest[j]) {
        InsertElements(x, s[1..], le, j);
        if rest[j] != x {
          var k :| 0 <= k < |s[1..]| && s[1..][k] == rest[j];
          assert s[k + 1] == rest[j];
        }
      }
      forall i, j | 0 <= i < j < |r| ensures le(r[i], r[j]) {
        if i == 0 {
          assert r[j] == rest[j - 1];
        } else {
          assert r[i] == rest[i - 1] && r[j] == rest[j - 1];
        }
      }
    }
  }

  /** Insertion sort: a permutation of `s`. `Insert` places an element in
      front of those it ties with; that the sort is stable is not proved. */
  function InsertionSort<T>(s: seq<T>, le: (T, T) -> bool): (r: seq<T>)
    ensures multiset(r) == multiset(s)
    ensures |r| == |s|
    decreases |s|
  {
    if |s| == 0 then []
    else
      assert s == [s[0]] + s[1..];
      var r := Insert(s[0], InsertionSort(s[1..], le), le);
      assert |r| == |multiset(r)| == |multiset(s)| == |s|;
      r
  }

  /** For a total preorder, insertion sort puts its output in order. */
  lemma {:induction false} InsertionSortSorted<T(!new)>(s: seq<T>, le: (T, T) -> bool)
    requires TotalPreorder(le)
    ensures SortedBy(InsertionSort(s, le), le)
    decreases |s|
  {
    if |s| > 0 {
      InsertionSortSorted(s[1..], le);
      InsertSorted(s[0], InsertionSort(s[1..], le), le);
    }
  }

  lemma {:induction false} InsertKeepsPairwise<T>(x: T, s: seq<T>, le: (T, T) -> bool, rel: (T, T) -> bool)
    requires forall a, b :: rel(a, b) ==> rel(b, a)
    requires SortedBy(s, rel)
    requires forall i :: 0 <= i < |s| ==> rel(x, s[i])
    ensures SortedBy(Insert(x, s, le), rel)
    decreases |s|
  {
    var r := Insert(x, s, le);
    if |s| == 0 {
    } else if le(x, s[0]) {
      assert r == [x] + s;
      forall i, j | 0 <= i < j < |r| ensures rel(r[i], r[j]) {
        assert r[j] == s[j - 1];
        if i > 0 {
          assert r[i] == s[i - 1];
        }
      }
    } else {
      var rest := Insert(x, s[1..], le);
      InsertKeepsPairwise(x, s[1..], le, rel);
      assert r == [s[0]] + rest;
      assert rel(s[0], x);
      forall j | 0 <= j < |rest| ensures rel(s[0], rest[j]) {
        InsertElements(x, s[1..], le, j);
        if rest[j] != x {
          var k :| 0 <= k < |s[1..]| && s[1..][k] == rest[j];
          assert s[k + 1] == rest[j];
        }
      }
      forall i, j | 0 <= i < j < |r| ensures rel(r[i], r[j]) {
        assert r[j] == rest[j - 1];
        if i > 0 {
          assert r[i] == rest[i - 1];
        }
      }
    }
  }

  /** Sorting keeps every relation that held between all pairs of elements
      (distinct names, say), provided the relation is symmetric. */
  lemma {:induction false} SortKeepsPairwise<T(!new)>(s: seq<T>, le: (T, T) -> bool, rel: (T, T) -> bool)
    requires TotalPreorder(le)
    requires forall a, b :: rel(a, b) ==> rel(b, a)
    requires SortedBy(s, rel)
    ensures SortedBy(InsertionSort(s, le), rel)
    decreases |s|
  {
    if |s| > 0 {
      var rest := InsertionSort(s[1..], le);
      SortKeepsPairwise(s[1..], le, rel);
      assert s == [s[0]] + s[1..];
      forall i | 0 <= i < |rest| ensures rel(s[0], rest[i]) {
        assert rest[i] in multiset(rest);
        var k :| 0 <= k < |s[1..]| && s[1..][k] == rest[i];
        assert s[k + 1] == rest[i];
      }
      InsertKeepsPairwise(s[0], rest, le, rel);
    }
  }

  /** The least element of `xs` by `le`, absent when `xs` is empty. */
  function Least<T(!new)>(xs: seq<T>, le: (T, T) -> bool): (r: Option<T>)
    requires TotalPreorder(le)
    ensures r.None? <==> |xs| == 0
    ensures r.Some? ==> r.value in xs && forall y :: y in xs ==> le(r.value, y)
    decreases |xs|
  {
    if |xs| == 0 then None
    else
      var rest := Least(xs[1..], le);
      assert xs == [xs[0]] + xs[1..];
      if rest.None? || le(xs[0], rest.value) then Some(xs[0]) else rest
  }

  /** The values of the present entries of `s`, in order. */
  function Present<T(!new)>(s: seq<Option<T>>): (r: seq<T>)
    ensures forall x :: x in r <==> Some(x) in s
    decreases |s|
  {
    if |s| == 0 then []
    else
      assert s == [s[0]] + s[1..];
      (if s[0].Some? then [s[0].value] else []) + Present(s[1..])
  }

  function RealLe(): (real, real) -> bool {
    (a: real, b: real) => a <= b
  }

  function RealGe(): (real, real) -> bool {
    (a: real, b: real) => a >= b
  }

  function IntLe(): (int, int) -> bool {
    (a: int, b: int) => a <= b
  }

  function IntGe(): (int, int) -> bool {
    (a: int, b: int) => a >= b
  }

  lemma NumericOrdersArePreorders()
    ensures TotalPreorder(RealLe()) && TotalPreorder(RealGe())
    ensures TotalPreorder(IntLe()) && TotalPreorder(IntGe())
  {
  }
}

=== FILE: search.dfy ===
/** Structural search: filter, count, sort, then cut the requested page; and
    the response the endpoint assembles from it, including its `has_more`
    flag. */
module Search {
  import opened Wrappers
  import opened Ordering
  import opened Models
  import opened Filters
  import opened Sorting

  function Min(a: int, b: int): int {
    if a <= b then a else b
  }

  function Max(a: int, b: int): int {
    if a >= b then a else b
  }

  /** The records from position `skip` on, at most `limit` of them, as an SQL
      `OFFSET skip LIMIT limit` returns them: an offset past the end gives
      nothing. */
  function Window(s: seq<Movie>, skip: nat, limit: nat): (w: seq<Movie>)
    ensures |w| == Min(limit, Max(0, |s| - skip))
  {
    s[Min(skip, |s|)..Min(skip + limit, |s|)]
  }

  lemma WindowElements(s: seq<Movie>, skip: nat, limit: nat)
    ensures forall i :: 0 <= i < |Window(s, skip, limit)| ==> Window(s, skip, limit)[i] == s[skip + i]
  {
  }

  /** Pages of one list tile it: the window of `n` from `skip` followed by the
      window of `k` from `skip + n` is the window of `n + k` from `skip`. */
  lemma WindowsTile(s: seq<Movie>, skip: nat, n: nat, after: nat, k: nat, both: nat)
    requires after == skip + n && both == n + k
    ensures Window(s, skip, n) + Window(s, after, k) == Window(s, skip, both)
  {
    var lo, mid, hi := Min(skip, |s|), Min(skip + n, |s|), Min(skip + n + k, |s|);
    assert s[lo..mid] + s[mid..hi] == s[lo..hi];
  }

  /** A window of a list sorted nulls last in some direction is sorted the same
      way. */
  lemma WindowKeepsOrder(s: seq<Movie>, skip: nat, limit: nat, column: SortBy, order: SortOrder)
    requires NullsLast(s, column) && Monotone(s, column, order)
    ensures NullsLast(Window(s, skip, limit), column)
    ensures Monotone(Window(s, skip, limit), column, order)
  {
    WindowElements(s, skip, limit);
  }

  /** The matching records in the requested order. */
  function SortedMatches(cat: seq<Movie>, req: SearchRequest): (s: seq<Movie>)
    ensures |s| == |MatchingIndices(cat, req)|
  {
    ApplySorting(BuildQuery(cat, req), req.sortBy, req.sortOrder)
  }

  /** Sorting brings in nothing new: each sorted match is a catalogue record
      the filters accept. */
  lemma SortedMatchesAreMatches(cat: seq<Movie>, req: SearchRequest)
    ensures forall i :: 0 <= i < |SortedMatches(cat, req)| ==>
      SortedMatches(cat, req)[i] in cat && Matches(req, SortedMatches(cat, req)[i])
  {
    var filtered := BuildQuery(cat, req);
    var s := SortedMatches(cat, req);
    forall i | 0 <= i < |s| ensures s[i] in cat && Matches(req, s[i]) {
      BuildQueryCounts(cat, req, s[i]);
      assert s[i] in multiset(s);
      assert s[i] in multiset(filtered);
    }
  }

  /** One page of matching records and the number of all matching records. */
  datatype Page = Page(items: seq<Movie>, total: nat)

  /** `execute_search` evaluated. The total is taken from the filtered records
      before sorting and paging. */
  function ExecuteSearch(cat: seq<Movie>, req: SearchRequest): (p: Page)
    requires req.skip >= 0 && req.limit >= 0
    ensures p.total == |MatchingIndices(cat, req)|
    ensures |p.items| == Min(req.limit, Max(0, p.total - req.skip))
    ensures req.skip >= p.total ==> p.items == []
  {
    Page(Window(SortedMatches(cat, req), req.skip, req.limit), |BuildQuery(cat, req)|)
  }

  /** Every record on a page is a catalogue record the filters accept. */
  lemma PageHoldsMatches(cat: seq<Movie>, req: SearchRequest)
    requires req.skip >= 0 && req.limit >= 0
    ensures forall i :: 0 <= i < |ExecuteSearch(cat, req).items| ==>
      ExecuteSearch(cat, req).items[i] in cat && Matches(req, ExecuteSearch(cat, req).items[i])
  {
    SortedMatchesAreMatches(cat, req);
    WindowElements(SortedMatches(cat, req), req.skip, req.limit);
  }

  /** Every page is in the requested order, nulls last. */
  lemma PageIsSorted(cat: seq<Movie>, req: SearchRequest)
    requires req.skip >= 0 && req.limit >= 0
    ensures NullsLast(ExecuteSearch(cat, req).items, req.sortBy)
    ensures Monotone(ExecuteSearch(cat, req).items, req.sortBy, req.sortOrder)
  {
    ApplySortingOrders(BuildQuery(cat, req), req.sortBy, req.sortOrder);
    WindowKeepsOrder(SortedMatches(cat, req), req.skip, req.limit, req.sortBy, req.sortOrder);
  }

  /** Filters only: two requests that differ only in their sort and page. */
  predicate SameFilters(a: SearchRequest, b: SearchRequest) {
    a.(sortBy := b.sortBy, sortOrder := b.sortOrder, skip := b.skip, limit := b.limit) == b
  }

  /** The total depends on the filters alone, never on the sort or the page. */
  lemma TotalIgnoresSortAndPage(cat: seq<Movie>, a: SearchRequest, b: SearchRequest)
    requires a.skip >= 0 && a.limit >= 0 && b.skip >= 0 && b.limit >= 0
    requires SameFilters(a, b)
    ensures ExecuteSearch(cat, a).total == ExecuteSearch(cat, b).total
  {
    assert forall m :: Matches(a, m) == Matches(b, m);
    assert MatchingIndices(cat, a) == MatchingIndices(cat, b);
  }

  /** Two requests for the same query, differing at most in their page. */
  predicate SameQuery(a: SearchRequest, b: SearchRequest) {
    b == a.(skip := b.skip, limit := b.limit)
  }

  /** The matches in order do not depend on the page. */
  lemma SortedMatchesIgnorePage(cat: seq<Movie>, a: SearchRequest, b: SearchRequest)
    requires SameQuery(a, b)
    ensures SortedMatches(cat, a) == SortedMatches(cat, b)
  {
    assert Clauses(a) == Clauses(b);
    BuildQueryDependsOnClauses(cat, a, b);
  }

  lemma PageIsWindow(cat: seq<Movie>, req: SearchRequest)
    requires req.skip >= 0 && req.limit >= 0
    ensures ExecuteSearch(cat, req).items == Window(SortedMatches(cat, req), req.skip, req.limit)
  {
  }

  /** Pages tile the sorted result: a page of a query followed by the next
      page of the same query is the page, from the first offset, as long as
      the two together. */
  lemma ConsecutivePages(cat: seq<Movie>, first: SearchRequest, next: SearchRequest, both: SearchRequest)
    requires first.skip >= 0 && first.limit >= 0 && next.limit >= 0
    requires SameQuery(first, next) && next.skip == first.skip + first.limit
    requires SameQuery(first, both) && both.skip == first.skip && both.limit == first.limit + next.limit
    ensures ExecuteSearch(cat, first).items + ExecuteSearch(cat, next).items
         == ExecuteSearch(cat, both).items
  {
    var s := SortedMatches(cat, first);
    SortedMatchesIgnorePage(cat, first, next);
    SortedMatchesIgnorePage(cat, first, both);
    PageIsWindow(cat, first);
    PageIsWindow(cat, next);
    PageIsWindow(cat, both);
    WindowsTile(s, first.skip, first.limit, next.skip, next.limit, both.limit);
  }

  lemma {:induction false} BuildQueryDependsOnClauses(cat: seq<Movie>, a: SearchRequest, b: SearchRequest)
    requires Clauses(a) == Clauses(b)
    ensures BuildQuery(cat, a) == BuildQuery(cat, b)
    decreases |cat|
  {
    if |cat| > 0 {
      BuildQueryDependsOnClauses(cat[..|cat| - 1], a, b);
    }
  }

  /** From the first position with room for every match, the page is the whole
      filtered result, reordered. */
  lemma FullPageIsAllMatches(cat: seq<Movie>, req: SearchRequest)
    requires req.skip == 0 && req.limit >= |BuildQuery(cat, req)|
    ensures multiset(ExecuteSearch(cat, req).items) == multiset(BuildQuery(cat, req))
  {
    var s := SortedMatches(cat, req);
    assert ExecuteSearch(cat, req).items == s[0..|s|];
    assert s[0..|s|] == s;
  }

  /** With no fields set, the search returns the ten best-rated records of
      the whole catalogue, and counts them all. */
  lemma DefaultSearch(cat: seq<Movie>)
    ensures ExecuteSearch(cat, DefaultRequest())
         == Page(ApplySorting(cat, Rating, Desc)[..Min(10, |cat|)], |cat|)
  {
    NoFiltersKeepCatalogue(cat, DefaultRequest());
  }

  /** The endpoint's `has_more`: records remain after this page. */
  function HasMore(skip: int, returned: int, total: int): bool {
    skip + returned < total
  }

  /** The structural search endpoint's response. */
  function StructuralSearch(cat: seq<Movie>, req: SearchRequest): (resp: SearchResponse)
    requires req.skip >= 0 && req.limit >= 0
    ensures resp.total == |MatchingIndices(cat, req)|
    ensures resp.skip == req.skip && resp.limit == req.limit
    ensures |resp.results| == Min(req.limit, Max(0, resp.total - req.skip))
    ensures resp.hasMore <==> req.skip + req.limit < resp.total
  {
    var page := ExecuteSearch(cat, req);
    SearchResponse(
      seq(|page.items|, i requires 0 <= i < |page.items| => ToResult(page.items[i])),
      page.total, req.skip, req.limit,
      HasMore(req.skip, |page.items|, page.total))
  }

  /** `has_more` is set exactly when the following page is not empty. */
  lemma HasMoreIffNextPageNonEmpty(cat: seq<Movie>, req: SearchRequest)
    requires req.skip >= 0 && req.limit >= 1
    ensures StructuralSearch(cat, req).hasMore
        <==> ExecuteSearch(cat, req.(skip := req.skip + req.limit)).items != []
  {
    var next := req.(skip := req.skip + req.limit);
    TotalIgnoresSortAndPage(cat, req, next);
  }
}

=== FILE: sorting.dfy ===
/** Ordering of search results by one column, ascending or descending, with
    the records whose column is null placed after all others in both
    directions (`ORDER BY col ASC|DESC NULLS LAST`). */
module Sorting {
  import opened Wrappers
  import opened Ordering
  import opened Models

  /** Lexicographic order of code-point strings. */
  predicate StrLe(a: string, b: string)
    decreases |a|
  {
    |a| == 0 || (|b| > 0 && (a[0] < b[0] || (a[0] == b[0] && StrLe(a[1..], b[1..]))))
  }

  lemma {:induction false} StrLeTotal(a: string, b: string)
    ensures StrLe(a, b) || StrLe(b, a)
    decreases |a|
  {
    if |a| > 0 && |b| > 0 && a[0] == b[0] {
      StrLeTotal(a[1..], b[1..]);
    }
  }

  lemma {:induction false} StrLeTransitive(a: string, b: string, c: string)
    requires StrLe(a, b) && StrLe(b, c)
    ensures StrLe(a, c)
    decreases |a|
  {
    if |a| > 0 && a[0] == b[0] && b[0] == c[0] {
      StrLeTransitive(a[1..], b[1..], c[1..]);
    }
  }

  /** Numbers compare numerically, titles lexicographically; a number is placed
      before a title (the two never meet in one column). */
  predicate KeyLe(a: SortKey, b: SortKey) {
    match (a, b)
    case (Number(x), Number(y)) => x <= y
    case (Label(s), Label(t)) => StrLe(s, t)
    case (Number(_), Label(_)) => true
    case (Label(_), Number(_)) => false
  }

  /** `a` may precede `b` when sorting by `column` in direction `order`. */
  predicate InOrder(order: SortOrder, a: SortKey, b: SortKey) {
    if order == Asc then KeyLe(a, b) else KeyLe(b, a)
  }

  /** `a` may precede `b`: a null key goes after every present key, and two
      present keys go in the requested direction. */
  predicate MovieLe(column: SortBy, order: SortOrder, a: Movie, b: Movie) {
    var ka := column.Key(a);
    var kb := column.Key(b);
    if kb.None? then true
    else if ka.None? then false
    else InOrder(order, ka.value, kb.value)
  }

  function MovieOrder(column: SortBy, order: SortOrder): (Movie, Movie) -> bool {
    (a: Movie, b: Movie) => MovieLe(column, order, a, b)
  }

  lemma KeyLeTotalPreorder(a: SortKey, b: SortKey, c: SortKey)
    ensures KeyLe(a, b) || KeyLe(b, a)
    ensures KeyLe(a, b) && KeyLe(b, c) ==> KeyLe(a, c)
  {
    if a.Label? && b.Label? {
      StrLeTotal(a.s, b.s);
    }
    if a.Label? && b.Label? && c.Label? && KeyLe(a, b) && KeyLe(b, c) {
      StrLeTransitive(a.s, b.s, c.s);
    }
  }

  /** The nulls-last comparison ranks every pair of movies and chains. */
  lemma MovieOrderIsTotalPreorder(column: SortBy, order: SortOrder)
    ensures TotalPreorder(MovieOrder(column, order))
  {
    var le := MovieOrder(column, order);
    forall a, b ensures le(a, b) || le(b, a) {
      if column.Key(a).Some? && column.Key(b).Some? {
        KeyLeTotalPreorder(column.Key(a).value, column.Key(b).value, column.Key(b).value);
      }
    }
    forall a, b, c | le(a, b) && le(b, c) ensures le(a, c) {
      var ka, kb, kc := column.Key(a), column.Key(b), column.Key(c);
      if ka.Some? && kb.Some? && kc.Some? {
        KeyLeTotalPreorder(ka.value, kb.value, kc.value);
        KeyLeTotalPreorder(kc.value, kb.value, ka.value);
      }
    }
  }

  /** Once a record with a null key appears, every later record has one too. */
  ghost predicate NullsLast(r: seq<Movie>, column: SortBy) {
    forall i, j :: 0 <= i < j < |r| && column.Key(r[i]).None? ==> column.Key(r[j]).None?
  }

  /** The present keys are non-decreasing for `Asc`, non-increasing for `Desc`. */
  ghost predicate Monotone(r: seq<Movie>, column: SortBy, order: SortOrder) {
    forall i, j :: 0 <= i < j < |r| && column.Key(r[i]).Some? && column.Key(r[j]).Some? ==>
      InOrder(order, column.Key(r[i]).value, column.Key(r[j]).value)
  }

  /** Sorted by the nulls-last comparison means exactly: nulls last, present
      keys in the requested direction. */
  lemma SortedMeansNullsLastAndMonotone(r: seq<Movie>, column: SortBy, order: SortOrder)
    ensures SortedBy(r, MovieOrder(column, order)) <==> NullsLast(r, column) && Monotone(r, column, order)
  {
  }

  /** `apply_sorting` evaluated: a permutation of the records, ties in the
      insertion sort's one fixed order (the database fixes none). */
  function ApplySorting(ms: seq<Movie>, column: SortBy, order: SortOrder): (r: seq<Movie>)
    ensures multiset(r) == multiset(ms)
    ensures |r| == |ms|
  {
    InsertionSort(ms, MovieOrder(column, order))
  }

  /** The sorted records have their nulls last and their present keys in the
      requested direction. */
  lemma ApplySortingOrders(ms: seq<Movie>, column: SortBy, order: SortOrder)
    ensures NullsLast(ApplySorting(ms, column, order), column)
    ensures Monotone(ApplySorting(ms, column, order), column, order)
  {
    MovieOrderIsTotalPreorder(column, order);
    InsertionSortSorted(ms, MovieOrder(column, order));
    SortedMeansNullsLastAndMonotone(ApplySorting(ms, column, order), column, order);
  }
}

=== FILE: stats.dfy ===
/** The slider ranges: the least and greatest rating and runtime of the
    catalogue and its size, each aggregate replaced by a fixed default when
    the query yields nothing or a falsy zero. */
module Stats {
  import opened Wrappers
  import opened Ordering
  import opened Models

  /** The non-null ratings of the catalogue, in catalogue order. */
  function Ratings(cat: seq<Movie>): (r: seq<real>)
    ensures forall x :: x in r <==> exists i :: 0 <= i < |cat| && cat[i].rating == Some(x)
  {
    var column := seq(|cat|, i requires 0 <= i < |cat| => cat[i].rating);
    forall x ensures Some(x) in column <==> exists i :: 0 <= i < |cat| && cat[i].rating == Some(x) {
      if Some(x) in column {
        var i :| 0 <= i < |column| && column[i] == Some(x);
      }
      if exists i :: 0 <= i < |cat| && cat[i].rating == Some(x) {
        var i :| 0 <= i < |cat| && cat[i].rating == Some(x);
        assert column[i] == Some(x);
      }
    }
    Present(column)
  }

  /** The non-null runtimes of the catalogue, in catalogue order. */
  function Runtimes(cat: seq<Movie>): (r: seq<int>)
    ensures forall x :: x in r <==> exists i :: 0 <= i < |cat| && cat[i].runtime == Some(x)
  {
    var column := seq(|cat|, i requires 0 <= i < |cat| => cat[i].runtime);
    forall x ensures Some(x) in column <==> exists i :: 0 <= i < |cat| && cat[i].runtime == Some(x) {
      if Some(x) in column {
        var i :| 0 <= i < |column| && column[i] == Some(x);
      }
      if exists i :: 0 <= i < |cat| && cat[i].runtime == Some(x) {
        var i :| 0 <= i < |cat| && cat[i].runtime == Some(x);
        assert column[i] == Some(x);
      }
    }
    Present(column)
  }

  /** `x` is one of `xs` and comes no later by `le` than any of them. */
  ghost predicate IsLeast<T(!new)>(x: T, xs: seq<T>, le: (T, T) -> bool) {
    x in xs && forall y :: y in xs ==> le(x, y)
  }

  /** Python's `value or default` on an aggregate: a null or a zero aggregate
      is falsy and gives way to the default. */
  function RealOr(value: Option<real>, default: real): (r: real)
    ensures value.Some? && value.value != 0.0 ==> r == value.value
    ensures value.None? || value.value == 0.0 ==> r == default
  {
    if value.Some? && value.value != 0.0 then value.value else default
  }

  function IntOr(value: Option<int>, default: int): (r: int)
    ensures value.Some? && value.value != 0 ==> r == value.value
    ensures value.None? || value.value == 0 ==> r == default
  {
    if value.Some? && value.value != 0 then value.value else default
  }

  /** `get_stats` evaluated. SQL `min` and `max` skip nulls and are null over
      no values; `count(id)` counts every record. */
  function GetStats(cat: seq<Movie>): (s: MovieStats)
    ensures s.totalMovies == |cat|
    ensures Ratings(cat) == [] ==> s.minRating == 0.0 && s.maxRating == 10.0
    ensures Runtimes(cat) == [] ==> s.minRuntime == 0 && s.maxRuntime == 300
    ensures forall x :: IsLeast(x, Ratings(cat), RealLe()) ==> s.minRating == x
    ensures forall x :: IsLeast(x, Ratings(cat), RealGe()) ==> s.maxRating == if x == 0.0 then 10.0 else x
    ensures forall x :: IsLeast(x, Runtimes(cat), IntLe()) ==> s.minRuntime == x
    ensures forall x :: IsLeast(x, Runtimes(cat), IntGe()) ==> s.maxRuntime == if x == 0 then 300 else x
  {
    NumericOrdersArePreorders();
    var ratings, runtimes := Ratings(cat), Runtimes(cat);
    MovieStats(
      RealOr(Least(ratings, RealLe()), 0.0),
      RealOr(Least(ratings, RealGe()), 10.0),
      IntOr(Least(runtimes, IntLe()), 0),
      IntOr(Least(runtimes, IntGe()), 300),
      |cat|)
  }

  /** On an empty catalogue every field takes its default. */
  lemma StatsOfEmptyCatalogue()
    ensures GetStats([]) == MovieStats(0.0, 10.0, 0, 300, 0)
  {
    assert Ratings([]) == [] && Runtimes([]) == [];
  }

  /** A catalogue whose ratings are all null reports the default rating range,
      whatever its runtimes. */
  lemma NullRatingsGiveDefaultRange(cat: seq<Movie>)
    requires forall i :: 0 <= i < |cat| ==> cat[i].rating.None?
    ensures GetStats(cat).minRating == 0.0 && GetStats(cat).maxRating == 10.0
  {
    if Ratings(cat) != [] {
      assert Ratings(cat)[0] in Ratings(cat);
    }
  }

  /** Some rating is present, so the reported minimum is the least rating of
      the catalogue: the least-or-default rule never changes it. */
  lemma MinRatingIsLeastRating(cat: seq<Movie>)
    requires exists i :: 0 <= i < |cat| && cat[i].rating.Some?
    ensures exists i :: 0 <= i < |cat| && cat[i].rating == Some(GetStats(cat).minRating)
    ensures forall i :: 0 <= i < |cat| && cat[i].rating.Some? ==> GetStats(cat).minRating <= cat[i].rating.value
  {
    NumericOrdersArePreorders();
    var i :| 0 <= i < |cat| && cat[i].rating.Some?;
    assert cat[i].rating.value in Ratings(cat);
    var least := Least(Ratings(cat), RealLe());
    assert IsLeast(least.value, Ratings(cat), RealLe());
    forall j | 0 <= j < |cat| && cat[j].rating.Some?
      ensures GetStats(cat).minRating <= cat[j].rating.value
    {
      assert cat[j].rating.value in Ratings(cat);
    }
  }

  /** The falsy-zero rule: when the longest runtime is 0 the reported maximum
      is the default 300, not 0. */
  lemma ZeroMaxRuntimeReportsDefault(cat: seq<Movie>)
    requires exists i :: 0 <= i < |cat| && cat[i].runtime == Some(0)
    requires forall i :: 0 <= i < |cat| && cat[i].runtime.Some? ==> cat[i].runtime.value <= 0
    ensures GetStats(cat).maxRuntime == 300
  {
    var i :| 0 <= i < |cat| && cat[i].runtime == Some(0);
    assert 0 in Runtimes(cat);
    assert IsLeast(0, Runtimes(cat), IntGe());
  }

  /** The aggregates with a default only in place of a null aggregate, which
      is what the empty-catalogue rule calls for: a real zero is reported as
      zero. */
  function GetStatsIntended(cat: seq<Movie>): (s: MovieStats)
    ensures s.totalMovies == |cat|
    ensures Ratings(cat) == [] ==> s.minRating == 0.0 && s.maxRating == 10.0
    ensures Runtimes(cat) == [] ==> s.minRuntime == 0 && s.maxRuntime == 300
    ensures forall x :: IsLeast(x, Ratings(cat), RealLe()) ==> s.minRating == x
    ensures forall x :: IsLeast(x, Ratings(cat), RealGe()) ==> s.maxRating == x
    ensures forall x :: IsLeast(x, Runtimes(cat), IntLe()) ==> s.minRuntime == x
    ensures forall x :: IsLeast(x, Runtimes(cat), IntGe()) ==> s.maxRuntime == x
  {
    NumericOrdersArePreorders();
    var ratings, runtimes := Ratings(cat), Runtimes(cat);
    MovieStats(
      Least(ratings, RealLe()).GetOr(0.0),
      Least(ratings, RealGe()).GetOr(10.0),
      Least(runtimes, IntLe()).GetOr(0),
      Least(runtimes, IntGe()).GetOr(300),
      |cat|)
  }

  /** With some runtime present, the intended maximum is the longest runtime
      of the catalogue, zero included. */
  lemma IntendedMaxRuntimeIsGreatest(cat: seq<Movie>)
    requires exists i :: 0 <= i < |cat| && cat[i].runtime.Some?
    ensures exists i :: 0 <= i < |cat| && cat[i].runtime == Some(GetStatsIntended(cat).maxRuntime)
    ensures forall i :: 0 <= i < |cat| && cat[i].runtime.Some? ==> cat[i].runtime.value <= GetStatsIntended(cat).maxRuntime
  {
    NumericOrdersArePreorders();
    var i :| 0 <= i < |cat| && cat[i].runtime.Some?;
    assert cat[i].runtime.value in Runtimes(cat);
    var greatest := Least(Runtimes(cat), IntGe());
    assert IsLeast(greatest.value, Runtimes(cat), IntGe());
    forall j | 0 <= j < |cat| && cat[j].runtime.Some?
      ensures cat[j].runtime.value <= GetStatsIntended(cat).maxRuntime
    {
      assert cat[j].runtime.value in Runtimes(cat);
    }
  }

  /** The two readings differ only through a zero aggregate: in a catalogue
      without a zero rating or a zero runtime they report the same. */
  lemma StatsAgreeWithoutZeros(cat: seq<Movie>)
    requires forall i :: 0 <= i < |cat| ==> cat[i].rating != Some(0.0) && cat[i].runtime != Some(0)
    ensures GetStats(cat) == GetStatsIntended(cat)
  {
    NumericOrdersArePreorders();
    assert 0.0 !in Ratings(cat);
    assert 0 !in Runtimes(cat);
  }

  /** One record with a zero runtime: the maximum runtime reported is 300,
      the intended one is 0. */
  lemma ZeroRuntimeRecordShowsFalsyDefault()
    ensures var cat := [Movie(1, "A", None, Some(0), None, None, None, None, None, None, None, None, None)];
      GetStats(cat).maxRuntime == 300 && GetStatsIntended(cat).maxRuntime == 0
  {
    var cat := [Movie(1, "A", None, Some(0), None, None, None, None, None, None, None, None, None)];
    assert cat[0].runtime == Some(0);
    ZeroMaxRuntimeReportsDefault(cat);
    assert IsLeast(0, Runtimes(cat), IntGe());
  }
}

=== FILE: text.dfy ===
/** The string operations the search core relies on: the case folding and
    substring containment behind SQL `ILIKE '%…%'`, Python's `str.strip()`
    and `str.split(",")`. Strings are sequences of code points. */
module Text {

  /** Python's `str.isspace()` for one code point: the ASCII separators and
      controls 9-13 and 28-31, the space, NEL, NBSP and the Unicode spaces. */
  predicate IsSpace(c: char) {
    var n := c as int;
    || 9 <= n <= 13
    || 28 <= n <= 32
    || n == 0x85 || n == 0xA0 || n == 0x1680
    || 0x2000 <= n <= 0x200A
    || n == 0x2028 || n == 0x2029 || n == 0x202F || n == 0x205F || n == 0x3000
  }

  /** Folding of one code point to lower case (Latin capitals only). */
  function Lower(c: char): char {
    if 'A' <= c <= 'Z' then (c as int + 32) as char else c
  }

  /** Folding of one code point to upper case (Latin small letters only). */
  function Upper(c: char): char {
    if 'a' <= c <= 'z' then (c as int - 32) as char else c
  }

  function LowerStr(s: string): string {
    seq(|s|, i requires 0 <= i < |s| => Lower(s[i]))
  }

  function UpperStr(s: string): string {
    seq(|s|, i requires 0 <= i < |s| => Upper(s[i]))
  }

  predicate IsPrefix(p: string, s: string) {
    |p| <= |s| && s[..|p|] == p
  }

  /** `t` occurs somewhere in `s`, tried position by position. */
  predicate Contains(s: string, t: string)
    decreases |s|
  {
    IsPrefix(t, s) || (|s| > 0 && Contains(s[1..], t))
  }

  /** `t` occurs in `s` starting at position `i`. */
  ghost predicate OccursAt(s: string, t: string, i: int) {
    0 <= i && i + |t| <= |s| && s[i..i + |t|] == t
  }

  lemma {:induction false} OccursImpliesContains(s: string, t: string, i: int)
    requires OccursAt(s, t, i)
    ensures Contains(s, t)
    decreases i
  {
    if i > 0 {
      assert s[1..][i - 1..i - 1 + |t|] == s[i..i + |t|];
      OccursImpliesContains(s[1..], t, i - 1);
    }
  }

  lemma {:induction false} ContainsImpliesOccurs(s: string, t: string)
    requires Contains(s, t)
    ensures exists i :: OccursAt(s, t, i)
    decreases |s|
  {
    if IsPrefix(t, s) {
      assert OccursAt(s, t, 0);
    } else {
      ContainsImpliesOccurs(s[1..], t);
      var i :| OccursAt(s[1..], t, i);
      assert s[i + 1..i + 1 + |t|] == s[1..][i..i + |t|];
      assert OccursAt(s, t, i + 1);
    }
  }

  /** The positional scan finds `t` exactly when `t` occurs at some position:
      containment anywhere, not only as a prefix. */
  lemma ContainsIffOccurs(s: string, t: string)
    ensures Contains(s, t) <==> exists i :: OccursAt(s, t, i)
  {
    if Contains(s, t) {
      ContainsImpliesOccurs(s, t);
    }
    forall i | OccursAt(s, t, i)
      ensures Contains(s, t)
    {
      OccursImpliesContains(s, t, i);
    }
  }

  /** Whatever surrounds it, a string contains itself. */
  lemma ContainsInfix(x: string, t: string, y: string)
    ensures Contains(x + t + y, t)
  {
    var s := x + t + y;
    assert s[|x|..|x| + |t|] == t;
    assert OccursAt(s, t, |x|);
    ContainsIffOccurs(s, t);
  }

  /** Case-insensitive containment, as `ILIKE '%t%'` without wildcards in `t`. */
  predicate IContains(s: string, t: string) {
    Contains(LowerStr(s), LowerStr(t))
  }

  lemma LowerStrConcat(a: string, b: string)
    ensures LowerStr(a + b) == LowerStr(a) + LowerStr(b)
  {
  }

  /** Case-insensitive containment sees each side only up to letter case:
      re-casing either side, or any of its letters, keeps the match. */
  lemma IContainsCaseBlind(s: string, s': string, t: string, t': string)
    requires LowerStr(s') == LowerStr(s) && LowerStr(t') == LowerStr(t)
    ensures IContains(s', t') == IContains(s, t)
  {
  }

  /** Upper- or lower-casing both sides together keeps the match. */
  lemma IContainsIgnoresCase(s: string, t: string)
    ensures IContains(s, t) == IContains(UpperStr(s), UpperStr(t))
    ensures IContains(s, t) == IContains(LowerStr(s), LowerStr(t))
  {
    assert LowerStr(UpperStr(s)) == LowerStr(s);
    assert LowerStr(UpperStr(t)) == LowerStr(t);
    IContainsCaseBlind(s, UpperStr(s), t, UpperStr(t));
    assert LowerStr(LowerStr(s)) == LowerStr(s);
    assert LowerStr(LowerStr(t)) == LowerStr(t);
    IContainsCaseBlind(s, LowerStr(s), t, LowerStr(t));
  }

  /** Every infix of a string is found case-insensitively, in whatever case it
      was written. */
  lemma IContainsInfix(x: string, t: string, y: string, t': string)
    requires LowerStr(t') == LowerStr(t)
    ensures IContains(x + t + y, t')
  {
    LowerStrConcat(x + t, y);
    LowerStrConcat(x, t);
    ContainsInfix(LowerStr(x), LowerStr(t), LowerStr(y));
  }

  /** Leading whitespace removed. */
  function TrimStart(s: string): (r: string)
    ensures |r| <= |s| && r == s[|s| - |r|..]
    ensures forall k :: 0 <= k < |s| - |r| ==> IsSpace(s[k])
    ensures r == [] || !IsSpace(r[0])
  {
    if |s| > 0 && IsSpace(s[0]) then TrimStart(s[1..]) else s
  }

  /** Trailing whitespace removed. */
  function TrimEnd(s: string): (r: string)
    ensures |r| <= |s| && r == s[..|r|]
    ensures forall k :: |r| <= k < |s| ==> IsSpace(s[k])
    ensures r == [] || !IsSpace(r[|r| - 1])
  {
    if |s| > 0 && IsSpace(s[|s| - 1]) then TrimEnd(s[..|s| - 1]) else s
  }

  /** Neither end of `r` is whitespace. */
  ghost predicate Trimmed(r: string) {
    r == [] || (!IsSpace(r[0]) && !IsSpace(r[|r| - 1]))
  }

  /** `r` is the block of `s` from position `i` whose both sides, in `s`, are
      whitespace only. */
  ghost predicate StripsAt(s: string, r: string, i: int) {
    && 0 <= i && i + |r| <= |s| && s[i..i + |r|] == r
    && (forall k :: 0 <= k < i ==> IsSpace(s[k]))
    && (forall k :: i + |r| <= k < |s| ==> IsSpace(s[k]))
  }

  /** `r` is the block of `s` left once whitespace is cut from both ends. */
  ghost predicate IsStripOf(s: string, r: string) {
    exists i :: StripsAt(s, r, i)
  }

  /** Python's `str.strip()` with no argument. */
  function Strip(s: string): (r: string)
    ensures Trimmed(r)
    ensures IsStripOf(s, r)
  {
    var t := TrimStart(s);
    var r := TrimEnd(t);
    assert r != [] ==> r[0] == t[0];
    var i := |s| - |t|;
    assert s[i..i + |r|] == r;
    assert StripsAt(s, r, i);
    r
  }

  /** Python's falsy-after-strip test `not s.strip()`. */
  predicate Blank(s: string) {
    Strip(s) == []
  }

  lemma BlankIffAllSpace(s: string)
    ensures Blank(s) <==> forall k :: 0 <= k < |s| ==> IsSpace(s[k])
  {
    var t := TrimStart(s);
    if t != [] {
      assert t[0] == s[|s| - |t|];
      assert TrimEnd(t) != [] ==> TrimEnd(t)[0] == t[0];
    }
  }

  /** Stripping twice changes nothing more. */
  lemma StripIdempotent(s: string)
    ensures Strip(Strip(s)) == Strip(s)
  {
  }

  /** Python's `s.split(sep)` with an explicit separator: the pieces between
      separators, empty ones included; the empty string gives one empty piece. */
  function Split(s: string, sep: char): (r: seq<string>)
    ensures |r| >= 1
    ensures forall i :: 0 <= i < |r| ==> sep !in r[i]
    decreases |s|
  {
    if |s| == 0 then [""]
    else
      var rest := Split(s[1..], sep);
      if s[0] == sep then [""] + rest
      else [[s[0]] + rest[0]] + rest[1..]
  }

  /** Python's `sep.join(pieces)`. */
  function Join(pieces: seq<string>, sep: char): string
    decreases |pieces|
  {
    if |pieces| == 0 then ""
    else if |pieces| == 1 then pieces[0]
    else pieces[0] + [sep] + Join(pieces[1..], sep)
  }

  /** Splitting loses nothing: joining the pieces gives back the text. */
  lemma {:induction false} JoinSplit(s: string, sep: char)
    ensures Join(Split(s, sep), sep) == s
    decreases |s|
  {
    if |s| > 0 {
      var rest := Split(s[1..], sep);
      JoinSplit(s[1..], sep);
      if s[0] == sep {
        assert Split(s, sep) == [""] + rest;
        assert ([""] + rest)[1..] == rest;
      } else {
        var r := Split(s, sep);
        assert r == [[s[0]] + rest[0]] + rest[1..];
        if |rest| == 1 {
          assert r == [[s[0]] + rest[0]];
        } else {
          assert r[1..] == rest[1..];
          assert Join(rest, sep) == rest[0] + [sep] + Join(rest[1..], sep);
        }
      }
    }
  }

  lemma {:induction false} SplitWithoutSeparator(a: string, sep: char)
    requires sep !in a
    ensures Split(a, sep) == [a]
    decreases |a|
  {
    if |a| > 0 {
      assert sep !in a[1..];
      SplitWithoutSeparator(a[1..], sep);
      assert [a[0]] + a[1..] == a;
    }
  }

  lemma {:induction false} SplitAtSeparator(a: string, sep: char, b: string)
    requires sep !in a
    ensures Split(a + [sep] + b, sep) == [a] + Split(b, sep)
    decreases |a|
  {
    var s := a + [sep] + b;
    if |a| == 0 {
      assert s[1..] == b;
    } else {
      assert s[1..] == a[1..] + [sep] + b;
      assert sep !in a[1..];
      SplitAtSeparator(a[1..], sep, b);
      assert [a[0]] + a[1..] == a;
    }
  }

  /** Pieces free of the separator are recovered exactly from their join. */
  lemma {:induction false} SplitJoin(pieces: seq<string>, sep: char)
    requires |pieces| >= 1
    requires forall i :: 0 <= i < |pieces| ==> sep !in pieces[i]
    ensures Split(Join(pieces, sep), sep) == pieces
    decreases |pieces|
  {
    if |pieces| == 1 {
      SplitWithoutSeparator(pieces[0], sep);
    } else {
      SplitJoin(pieces[1..], sep);
      SplitAtSeparator(pieces[0], sep, Join(pieces[1..], sep));
      assert [pieces[0]] + pieces[1..] == pieces;
    }
  }
}

=== FILE: wrappers.dfy ===
/** The optional value used for every nullable column and every optional
    request field of the catalogue: Python's `Optional[...]` / SQL NULL. */
module Wrappers {

  datatype Option<+T> = None | Some(value: T) {

    /** The wrapped value, or `default` when absent. */
    function GetOr(default: T): T {
      match this
      case Some(v) => v
      case None => default
    }
  }
}
